=== FILE: README.md ===
# Stereo rectification operator of `rawlog-edit`, modelled in Dafny

This project models the `--stereo-rectify LABEL,ALPHA` operator of MRPT's
`rawlog-edit` tool. The operator reads a rawlog, the sensor log format
used by MRPT. It finds the stereo-image observations whose sensor label
equals `LABEL`, ignoring case. It builds a stereo rectification map once,
from the first such observation. It then rectifies every matching pair with
that map and saves both images as files under `<output-rawlog-name>_Images/`.
Each image field of the observation is replaced by its file name. Every
record, changed or not, goes to the output rawlog in its original shape.

Modules:

- `Wrappers` (`wrappers.dfy`): `Option` stands for nullable pointers and
  optional arguments; `Result` stands for code that can throw.
- `TextUtils` (`text.dfy`): the two string helpers the operator relies on.
  `Tokenize` is `tokenize`, which splits like `strtok`: runs of delimiters
  collapse and no empty token is produced. `EqualsIgnoreCase` is `strCmpI`,
  an ASCII case-insensitive comparison like `strcasecmp`.
- `RectifyConfig` (`config.dfy`): the operator's constructor. It parses
  `LABEL,ALPHA`, checks the alpha range, names and creates the output
  directory, and parses the optional `--image-size NCOLSxNROWS`. `atof`,
  `atoi`, the two path helpers, the set of existing directories, the set of
  other existing files, and whether `createDirectory` would make a directory
  at a free path are all fields of a `Host` value. `directoryExists` (line
  88) is membership of the directories; `fileExists` (line 94) holds for any
  existing path, directory or not.
- `Rawlog` (`rawlog.dfy`): observations (stereo, battery state, any other
  sensor), records (an action collection with its sensory frame, or a
  standalone observation), output entries, and reading entries back.
- `StereoRectify` (`processor.dfy`): `processOneObservation` as a step
  function over a state. The state is the map (not built, or built from
  given parameters) plus the change counter. The module also holds the file
  names, `OnPostProcess`, and a sequential fold over the records. The
  rectification itself and the `%f` text of a timestamp are opaque functions
  held in `Env`.
- `StereoRectifyProofs` (`proofs.dfy`): whole-run properties. They are
  stated against two reference definitions: the number of matching
  observations and the position of the first one.

The constructor creates the output directory (line 93) before it checks
`--image-size` (lines 102-107). A malformed size therefore throws with the
new directory left behind, and a re-run with the same output path then fails
because that directory exists. `RectifyConfig.MalformedSizeLeavesDirectory`
and `RectifyConfig.RerunRefused` state this behaviour.

The two existence tests differ: line 88 refuses an existing directory, but
line 94 accepts any existing path once `createDirectory` has run. A regular
file already at `<name>_Images` is therefore not refused: no directory is
created and construction succeeds. `RectifyConfig.FileAtOutDirAccepted`
states this behaviour.

## Model

| member | source | states |
|---|---|---|
| TextUtils.Tokenize | apps/rawlog-tools/rawlog-edit_stereo-rectify.cpp:70-72 | every token is non-empty and contains no delimiter, and the tokens together hold exactly the non-delimiter characters of the argument, in order |
| TextUtils.TokenizeSplit | apps/rawlog-tools/rawlog-edit_stereo-rectify.cpp:70-72 | the tokens of `a d b` for a delimiter `d` are the tokens of `a` followed by the tokens of `b` |
| TextUtils.TokenizePair | apps/rawlog-tools/rawlog-edit_stereo-rectify.cpp:70-75 | two non-empty fields without delimiters, joined by one delimiter, tokenise back to exactly those two fields |
| TextUtils.EqualsIgnoreCaseIffLowerEqual | apps/rawlog-tools/rawlog-edit_stereo-rectify.cpp:119 | two labels are equal ignoring case exactly when their ASCII-lower-cased forms are equal |
| TextUtils.EqualsIgnoreCaseIsEquivalence | apps/rawlog-tools/rawlog-edit_stereo-rectify.cpp:119 | label matching ignoring case is reflexive, symmetric and transitive |
| RectifyConfig.AlphaAcceptedIff | apps/rawlog-tools/rawlog-edit_stereo-rectify.cpp:77-80 | alpha is accepted exactly when it is -1 or a finite value in [0, 1]; NaN and both infinities are refused |
| RectifyConfig.OutDirName | apps/rawlog-tools/rawlog-edit_stereo-rectify.cpp:85-87 | the directory is `<name>_Images` when the base directory is empty, and otherwise the base directory, one `/`, then `<name>_Images` |
| RectifyConfig.ImageSizeRoundTrip | apps/rawlog-tools/rawlog-edit_stereo-rectify.cpp:102-110 | `NCOLSxNROWS` with non-empty `x`-free parts is read back as exactly `(atoi(NCOLS), atoi(NROWS))`, columns first |
| RectifyConfig.ImageSizeWrongFieldCount | apps/rawlog-tools/rawlog-edit_stereo-rectify.cpp:104-107 | a size argument with one field, with three `x`-separated fields, or empty, is malformed |
| RectifyConfig.Construct | apps/rawlog-tools/rawlog-edit_stereo-rectify.cpp:61-115 | the constructor creates at most the one output directory, and only at a path where nothing existed. On success no directory existed at the path, alpha is in range, and `outDir` is the path plus `/`. The directory was created exactly when no other file held the path; when one did, nothing is created |
| RectifyConfig.ConstructSucceedsIff | apps/rawlog-tools/rawlog-edit_stereo-rectify.cpp:70-107 | construction succeeds exactly when: the label/alpha argument has two tokens; alpha is accepted; no directory exists at the path; a non-directory file holds the path or the directory can be created; and an image size, if given, has two tokens |
| RectifyConfig.FileAtOutDirAccepted | apps/rawlog-tools/rawlog-edit_stereo-rectify.cpp:88-94 | with valid arguments, a regular file at the output path passes both existence tests, so construction succeeds and creates no directory |
| RectifyConfig.ConstructConfig | apps/rawlog-tools/rawlog-edit_stereo-rectify.cpp:75-113 | a successful construction takes the first token as the target label and the parsed second token as alpha, keeps the image extension, and enables resize with (cols, rows) exactly when a size was given |
| RectifyConfig.OutDirHasOneTrailingSlash | apps/rawlog-tools/rawlog-edit_stereo-rectify.cpp:87-98 | the stored output directory ends with exactly one `/` |
| RectifyConfig.EarlyErrorsCreateNothing | apps/rawlog-tools/rawlog-edit_stereo-rectify.cpp:70-95 | every failure except a malformed image size leaves the set of directories unchanged |
| RectifyConfig.MalformedSizeLeavesDirectory | apps/rawlog-tools/rawlog-edit_stereo-rectify.cpp:93-107 | a malformed image size is detected only after the directory was created at the free path, and that new directory remains |
| RectifyConfig.RerunRefused | apps/rawlog-tools/rawlog-edit_stereo-rectify.cpp:85-89 | after a run that created the image directory, a second run with the same output path fails with "directory exists" and creates nothing |
| RectifyConfig.LabelAlphaRoundTrip | apps/rawlog-tools/rawlog-edit_stereo-rectify.cpp:70-77 | `LABEL,ALPHA` with non-empty comma-free parts yields exactly that label and that alpha text |
| RectifyConfig.AlphaTwoRejected | apps/rawlog-tools/rawlog-edit_stereo-rectify.cpp:77-80 | `CAM1,2` is refused as an invalid alpha before any directory is created |
| RectifyConfig.ThreeFieldsRejected | apps/rawlog-tools/rawlog-edit_stereo-rectify.cpp:70-73 | an argument with three non-empty comma-separated fields is refused before any directory is created |
| StereoRectify.LeftNeverRight | apps/rawlog-tools/rawlog-edit_stereo-rectify.cpp:137-147 | with the same extension, a left image name never equals a right image name, whatever the two stems |
| StereoRectify.FileNamesInjective | apps/rawlog-tools/rawlog-edit_stereo-rectify.cpp:137-147 | two left names (or two right names) with the same extension are equal only when their `<label>_<time>` stems are equal |
| StereoRectify.FileNamesEncodeLabel | apps/rawlog-tools/rawlog-edit_stereo-rectify.cpp:137-146 | both names begin with `img_<sensorLabel>_`, using the observation's own label, and end with `.<ext>` |
| StereoRectify.ProcessOneObservation | apps/rawlog-tools/rawlog-edit_stereo-rectify.cpp:117-152 | always returns true. A non-match leaves state, observation and files untouched. A match increments the counter by one, builds the map only if it was not built, and stores two distinct file names in the observation: `img_<label>_<time>_left.<ext>` and `img_<label>_<time>_right.<ext>`, with the observation's own label and timestamp. The two files are written under exactly those names, holding the images rectified with the state's map. |
| StereoRectify.OnPostProcess | apps/rawlog-tools/rawlog-edit_stereo-rectify.cpp:155-164 | succeeds exactly when actions and frame are both present or an observation is present; writes the actions then the frame when actions are present (a null entry in place of an absent frame, and never the observation), otherwise the observation alone |
| StereoRectify.ReadBackSerialize | apps/rawlog-tools/rawlog-edit_stereo-rectify.cpp:155-164 | reading the written entries back gives exactly the records written, in order and with the same bundling |
| StereoRectify.ProcessStream | apps/rawlog-tools/rawlog-edit_stereo-rectify.cpp:117-151 | since every step answers true, one output observation is produced per input observation |
| StereoRectify.ProcessRecord | apps/rawlog-tools/rawlog-edit_stereo-rectify.cpp:117-164 | a processed record keeps its kind, its actions and the number of observations in its frame |
| StereoRectify.ProcessLog | apps/rawlog-tools/rawlog-edit_stereo-rectify.cpp:155-164 | one output record per input record, in order, each in the same shape as its input |
| StereoRectifyProofs.FirstMatch | apps/rawlog-tools/rawlog-edit_stereo-rectify.cpp:125-131 | reference definition: the position of a matching observation with no match before it, or `None` exactly when nothing matches |
| StereoRectifyProofs.StreamFacts | apps/rawlog-tools/rawlog-edit_stereo-rectify.cpp:117-152 | from any state, the counter grows by the number of matches; the map is built at most once, from the first match, and then never changes; every match is rectified with that map; every other observation is unchanged; two files per match |
| StereoRectifyProofs.LogIsStream | apps/rawlog-tools/rawlog-edit_stereo-rectify.cpp:117-164 | processing record by record gives the same final state, output observations and written files as processing the flattened observation stream |
| StereoRectifyProofs.RunCountsMatches | apps/rawlog-tools/rawlog-edit_stereo-rectify.cpp:148 | the final `m_changedCams` equals the number of matching stereo observations in the rawlog |
| StereoRectifyProofs.RunBuildsMapFromFirstMatch | apps/rawlog-tools/rawlog-edit_stereo-rectify.cpp:125-131 | the map stays unbuilt when nothing matches, and otherwise is built from the configured alpha and resize and the calibration of the first match in stream order |
| StereoRectifyProofs.RunOutput | apps/rawlog-tools/rawlog-edit_stereo-rectify.cpp:119-151 | every non-matching observation is output unchanged, and every matching one is output rectified with the single map built from the first match |
| StereoRectifyProofs.RunPreservesRecords | apps/rawlog-tools/rawlog-edit_stereo-rectify.cpp:155-164 | the output rawlog has as many records as the input, in the same shapes, and reading it back yields exactly the processed records |
| StereoRectifyProofs.UntouchedRecords | apps/rawlog-tools/rawlog-edit_stereo-rectify.cpp:119-151 | a record containing no matching observation is written out exactly as it was read |
| StereoRectifyProofs.WritesNameMatches | apps/rawlog-tools/rawlog-edit_stereo-rectify.cpp:137-147 | every written file is the left or right image path of some matching observation |
| StereoRectifyProofs.EveryMatchWritten | apps/rawlog-tools/rawlog-edit_stereo-rectify.cpp:137-147 | conversely, both image files of every matching observation are written, holding its images rectified with the run's one map |
| StereoRectifyProofs.RunWritesEveryOutputImage | apps/rawlog-tools/rawlog-edit_stereo-rectify.cpp:134-147 | over a whole run, every file name the output rawlog stores for a matching observation is a file written under the output directory, holding that observation's image rectified with the map built from the first match |
| StereoRectifyProofs.NoImageOverwritten | apps/rawlog-tools/rawlog-edit_stereo-rectify.cpp:137-147 | when matching observations have pairwise distinct `<label>_<time>` stems, no two written paths are equal as strings |
| StereoRectifyProofs.RunWritesDistinctFiles | apps/rawlog-tools/rawlog-edit_stereo-rectify.cpp:137-147 | the same no-overwrite guarantee for a whole run over a rawlog |
| StereoRectifyProofs.ThreeRecordScenario | apps/rawlog-tools/rawlog-edit_stereo-rectify.cpp:117-152 | for records `CAM1`, `CAM1`, `OTHER` with target `CAM1`: both `CAM1` records are rectified with the map from the first, `OTHER` is untouched, the counter is 2 and four files are written |
| StereoRectifyProofs.BatteryStatePassesThrough | apps/rawlog-tools/rawlog-edit_stereo-rectify.cpp:119-121 | a battery-state observation carrying the target label is passed through with no state change and no file written |

## Left out

- The rectification mathematics of `CStereoRectifyMap` is not modelled. This covers `setFromCamParams`, `rectify` and the resampling of `enableResizeOutput`, which wrap OpenCV floating-point code. `rectify` is an opaque function of the map parameters and the observation. Nothing is claimed about image sizes after resizing, or about cropping and padding for alpha 0 or 1.
- The `%f` text of `timestampTotime_t(timestamp)` is an opaque function of the timestamp, and no claim is made that distinct timestamps give distinct text. `NoImageOverwritten` takes distinct `<label>_<time>` stems as its premise.
- `tokenize`, `strCmpI`, `extractFileDirectory`, `extractFileName`, `atof` and `atoi` are MRPT and C-library helpers. They are defined outside `rawlog-edit_stereo-rectify.cpp`. `tokenize` is modelled with `strtok` behaviour and `strCmpI` as ASCII `strcasecmp`, with no special meaning for embedded NUL characters. The other four are parameters.
- Writing image files (`saveToFile`) is not modelled as I/O. The step returns each write as a (path, pixels) value. Lines 140 and 145 ignore the result of `saveToFile`, so a failed write is ignored and the observation still names the file. The model does the same: it lists each write and always stores the file name.
- Directory creation and the existence checks are not modelled as I/O either. The directories are a set of path strings, and whether `createDirectory` would make a directory at a free path is a predicate on the path. Other existing files are a second set of paths. Paths are not normalised and are compared as exact strings: image names that differ only in letter case (say from observations labelled `CAM1` and `cam1`, which both match) count as distinct, though a case-insensitive file system would store them as one file.
- The TCLAP command-line plumbing is left out, and so are the verbose output and the timing statistics (`m_timToParse`).
- gzip rawlog streams and serialisation are left out. Output entries are values, and `NullEntry` stands for writing an empty pointer.
- The reading loop of the `CRawlogProcessorOnEachObservation` base class is defined outside `rawlog-edit_stereo-rectify.cpp`. The model supplies its own fold over records. A standalone observation gets one step, and each observation of a sensory frame gets one step in frame order. An observation whose step answered false would be dropped.
- StereoRectify.ProcessStream: its contract states only the observation count. Counter, map and content are stated by `StereoRectifyProofs.StreamFacts`.
- `m_changedCams` is a `size_t`. The model uses an unbounded counter because wrap-around would need 2^32 matching observations on a 32-bit build and 2^64 on a 64-bit one, each of which writes two files.
- Later matching observations may carry a different calibration from the first. The source does not check this, and neither does the model: the first map is reused regardless.
- `CObservationBatteryState` appears only as one variant of the observation body, to exercise passthrough. Its `getSensorPose` and `setSensorPose` do nothing. Its rule that the validity vector has the same size as the values is not enforced anywhere in its code.

=== FILE: config.dfy ===
/** Construction of the `--stereo-rectify` operator: parsing `LABEL,ALPHA`,
    range-checking alpha, naming and creating the output image directory, and
    the optional `NCOLSxNROWS` resize argument. Every `throw` of the C++
    constructor is a `Failure` here, and because the constructor can create a
    directory before it throws, the directories present afterwards are part
    of the outcome. */
module RectifyConfig {
  import opened Wrappers
  import opened TextUtils

  /** A C `double` as `atof` can return it, with IEEE comparisons below. */
  datatype Double = Finite(value: real) | PosInf | NegInf | NaN

  predicate DoubleEq(d: Double, x: real) { d.Finite? && d.value == x }
  predicate DoubleGe(d: Double, x: real) { d == PosInf || (d.Finite? && d.value >= x) }
  predicate DoubleLe(d: Double, x: real) { d == NegInf || (d.Finite? && d.value <= x) }

  /** The constructor's test, written as the C++ condition is: reject when
      `alpha != -1 && !(alpha >= 0 && alpha <= 1)`. */
  predicate AlphaAccepted(alpha: Double)
  {
    !(!DoubleEq(alpha, -1.0) && !(DoubleGe(alpha, 0.0) && DoubleLe(alpha, 1.0)))
  }

  /** Alpha is accepted exactly when it is the auto sentinel -1 or a finite
      value in [0, 1]; NaN and both infinities are refused. */
  lemma AlphaAcceptedIff(alpha: Double)
    ensures AlphaAccepted(alpha) <==> alpha == Finite(-1.0) || (alpha.Finite? && 0.0 <= alpha.value <= 1.0)
    ensures alpha.NaN? || alpha.PosInf? || alpha.NegInf? ==> !AlphaAccepted(alpha)
  {
  }

  newtype int32 = x: int | -0x8000_0000 <= x < 0x8000_0000

  /** The resize target handed to `enableResizeOutput`: columns first, then rows. */
  datatype Size = Size(cols: int32, rows: int32)

  /** The command-line values the constructor reads. `imageSize` is `None`
      when `--image-size` was not given. */
  datatype Args = Args(stereoRectify: string, imageFormat: string, imageSize: Option<string>, outRawlog: string)

  /** What the constructor asks of its surroundings: C-library number
      parsing, the path helpers, the directories and the other (non-directory)
      files that exist now, and whether `createDirectory` would make a new
      directory at a given free path. `directoryExists(p)` is `p in dirs`;
      `fileExists(p)` holds for any existing path, `p in dirs || p in files`. */
  datatype Host = Host(
    atof: string -> Double,
    atoi: string -> int32,
    fileDirectory: string -> string,
    fileName: string -> string,
    dirs: set<string>,
    files: set<string>,
    canCreate: string -> bool)

  /** Whether `createDirectory(dir)` makes a directory: never where a
      directory or another file already sits, otherwise as the host says. */
  predicate Creates(host: Host, dir: string)
  {
    dir !in host.dirs && dir !in host.files && host.canCreate(dir)
  }

  datatype ConfigError =
    | MalformedRectifyArg
    | InvalidAlpha
    | OutDirExists(dir: string)
    | CannotCreateDir(dir: string)
    | MalformedImageSize

  /** The operator's configuration once construction succeeds. `outDir`
      carries its trailing `/`. */
  datatype Config = Config(targetLabel: string, alpha: Double, imageExt: string, outDir: string, resize: Option<Size>)

  /** The constructor's outcome together with the directories that exist
      after it returned or threw. */
  datatype Construction = Construction(result: Result<Config, ConfigError>, dirs: set<string>)

  const Suffix: string := "_Images"

  /** Output directory for the images: `<basedir>/<name>_Images`, or
      `<name>_Images` when the output rawlog has no directory part. */
  function OutDirName(baseDir: string, name: string): (dir: string)
    ensures |dir| >= |Suffix| && dir[|dir| - |Suffix|..] == Suffix
    ensures baseDir == "" ==> dir == name + Suffix
    ensures baseDir != "" ==> |dir| > |baseDir| && dir[..|baseDir|] == baseDir && dir[|baseDir|] == '/'
                              && dir[|baseDir| + 1..] == name + Suffix
  {
    (if baseDir == "" then "" else baseDir + "/") + name + Suffix
  }

  /** The output directory the constructor derives from the output rawlog path. */
  function OutDirFor(args: Args, host: Host): string
  {
    OutDirName(host.fileDirectory(args.outRawlog), host.fileName(args.outRawlog))
  }

  /** The optional resize argument: absent, well-formed, or malformed. */
  function ParseImageSize(arg: string, host: Host): Option<Size>
  {
    var tokens := Tokenize(arg, {'x'});
    if |tokens| != 2 then None else Some(Size(host.atoi(tokens[0]), host.atoi(tokens[1])))
  }

  /** The operator's constructor, checks in source order. After the
      `directoryExists` refusal the directory is created, and construction
      goes on when `fileExists` then holds for the path: either the new
      directory was made, or a non-directory file already sat there, in which
      case nothing is created. */
  function Construct(args: Args, host: Host): (r: Construction)
    ensures r.dirs == host.dirs || r.dirs == host.dirs + {OutDirFor(args, host)}
    ensures r.dirs != host.dirs ==> Creates(host, OutDirFor(args, host))
    ensures r.result.Success? ==>
              && OutDirFor(args, host) !in host.dirs
              && (OutDirFor(args, host) in host.files || Creates(host, OutDirFor(args, host)))
              && (r.dirs == host.dirs + {OutDirFor(args, host)} <==> OutDirFor(args, host) !in host.files)
              && (OutDirFor(args, host) in host.files ==> r.dirs == host.dirs)
              && AlphaAccepted(r.result.value.alpha)
              && r.result.value.outDir == OutDirFor(args, host) + "/"
  {
    var tokens := Tokenize(args.stereoRectify, {','});
    if |tokens| != 2 then Construction(Failure(MalformedRectifyArg), host.dirs)
    else
      var alpha := host.atof(tokens[1]);
      if !AlphaAccepted(alpha) then Construction(Failure(InvalidAlpha), host.dirs)
      else
        var dir := OutDirFor(args, host);
        if dir in host.dirs then Construction(Failure(OutDirExists(dir)), host.dirs)
        else
          var dirs := if Creates(host, dir) then host.dirs + {dir} else host.dirs;
          if !(dir in dirs || dir in host.files) then Construction(Failure(CannotCreateDir(dir)), host.dirs)
          else
            var config := Config(tokens[0], alpha, args.imageFormat, dir + "/", None);
            match args.imageSize
            case None => Construction(Success(config), dirs)
            case Some(arg) =>
              match ParseImageSize(arg, host)
              case None => Construction(Failure(MalformedImageSize), dirs)
              case Some(size) => Construction(Success(config.(resize := Some(size))), dirs)
  }

  /** Construction succeeds exactly when both argument formats are right,
      alpha is in range, no directory sits at the output path, and either a
      non-directory file sits there or the directory can be made. */
  lemma ConstructSucceedsIff(args: Args, host: Host)
    ensures Construct(args, host).result.Success? <==>
              && |Tokenize(args.stereoRectify, {','})| == 2
              && AlphaAccepted(host.atof(Tokenize(args.stereoRectify, {','})[1]))
              && OutDirFor(args, host) !in host.dirs
              && (OutDirFor(args, host) in host.files || host.canCreate(OutDirFor(args, host)))
              && (args.imageSize.Some? ==> |Tokenize(args.imageSize.value, {'x'})| == 2)
  {
  }

  /** On success the configuration holds the first token as the target
      label, the parsed alpha, the image extension as given, and the resize
      as `(cols, rows)` exactly when `--image-size` was given. */
  lemma ConstructConfig(args: Args, host: Host)
    requires Construct(args, host).result.Success?
    ensures var c := Construct(args, host).result.value;
            var tokens := Tokenize(args.stereoRectify, {','});
            && c.targetLabel == tokens[0]
            && c.alpha == host.atof(tokens[1])
            && c.imageExt == args.imageFormat
            && (c.resize.Some? <==> args.imageSize.Some?)
            && (c.resize.Some? ==>
                  var dims := Tokenize(args.imageSize.value, {'x'});
                  c.resize.value == Size(host.atoi(dims[0]), host.atoi(dims[1])))
  {
  }

  /** The trailing `/` is appended exactly once: the directory name itself
      ends in `_Images`, not in a separator. */
  lemma OutDirHasOneTrailingSlash(args: Args, host: Host)
    requires Construct(args, host).result.Success?
    ensures var d := Construct(args, host).result.value.outDir;
            |d| >= 2 && d[|d| - 1] == '/' && d[|d| - 2] != '/'
  {
  }

  /** Every failure other than a malformed `--image-size` is raised before
      the directory is created, so the file system is left as it was. */
  lemma EarlyErrorsCreateNothing(args: Args, host: Host)
    requires Construct(args, host).result.Failure?
    requires Construct(args, host).result.error != MalformedImageSize
    ensures Construct(args, host).dirs == host.dirs
  {
  }

  /** A malformed `--image-size` is only detected after the directory has
      been created, so that failure leaves the new directory behind (unless
      a non-directory file already held the path, when nothing was made). */
  lemma MalformedSizeLeavesDirectory(args: Args, host: Host)
    requires Construct(args, host).result == Failure(MalformedImageSize)
    ensures OutDirFor(args, host) !in host.files ==> Construct(args, host).dirs == host.dirs + {OutDirFor(args, host)}
    ensures OutDirFor(args, host) in host.files ==> Construct(args, host).dirs == host.dirs
    ensures OutDirFor(args, host) !in host.dirs
  {
  }

  /** Re-running with the same output path after a run that created the
      image directory (successful or not) fails with `OutDirExists` and
      creates nothing. */
  lemma RerunRefused(args: Args, host: Host, args2: Args)
    requires Construct(args, host).dirs != host.dirs
    requires args2.outRawlog == args.outRawlog
    requires |Tokenize(args2.stereoRectify, {','})| == 2
    requires AlphaAccepted(host.atof(Tokenize(args2.stereoRectify, {','})[1]))
    ensures var host2 := host.(dirs := Construct(args, host).dirs);
            && Construct(args2, host2).result == Failure(OutDirExists(OutDirFor(args, host)))
            && Construct(args2, host2).dirs == host2.dirs
  {
  }

  /** A regular file already sitting at the output path is not refused:
      `directoryExists` is false for it, `createDirectory` fails, and
      `fileExists` is true. Construction then proceeds with no directory
      created, and the images are later saved under a path that is a file. */
  lemma FileAtOutDirAccepted(args: Args, host: Host)
    requires |Tokenize(args.stereoRectify, {','})| == 2
    requires AlphaAccepted(host.atof(Tokenize(args.stereoRectify, {','})[1]))
    requires OutDirFor(args, host) in host.files && OutDirFor(args, host) !in host.dirs
    requires args.imageSize.None?
    ensures Construct(args, host).result.Success?
    ensures Construct(args, host).dirs == host.dirs
  {
  }

  /** `NCOLSxNROWS` with non-empty `x`-free parts is read back as exactly
      those two numbers, columns first. */
  lemma ImageSizeRoundTrip(cols: string, rows: string, host: Host)
    requires |cols| > 0 && DelimFree(cols, {'x'})
    requires |rows| > 0 && DelimFree(rows, {'x'})
    ensures ParseImageSize(cols + "x" + rows, host) == Some(Size(host.atoi(cols), host.atoi(rows)))
  {
    TokenizePair(cols, 'x', rows, {'x'});
  }

  /** A size argument with one field, or with three `x`-separated fields, is
      malformed, and so is the empty argument. */
  lemma ImageSizeWrongFieldCount(x: string, y: string, z: string, host: Host)
    requires |x| > 0 && DelimFree(x, {'x'})
    requires |y| > 0 && DelimFree(y, {'x'})
    requires |z| > 0 && DelimFree(z, {'x'})
    ensures ParseImageSize(x, host) == None
    ensures ParseImageSize(x + "x" + y + "x" + z, host) == None
    ensures ParseImageSize("", host) == None
  {
    TokenizeSingle(x, {'x'});
    assert x + "x" + y + "x" + z == x + ['x'] + (y + "x" + z);
    TokenizeSplit(x, 'x', y + "x" + z, {'x'});
    TokenizePair(y, 'x', z, {'x'});
  }

  /** `LABEL,ALPHA` with a non-empty comma-free label and alpha text is
      split back into exactly that label and that alpha text. */
  lemma LabelAlphaRoundTrip(sensor: string, alphaText: string)
    requires |sensor| > 0 && DelimFree(sensor, {','})
    requires |alphaText| > 0 && DelimFree(alphaText, {','})
    ensures Tokenize(sensor + "," + alphaText, {','}) == [sensor, alphaText]
  {
    TokenizePair(sensor, ',', alphaText, {','});
  }

  /** `--stereo-rectify CAM1,2` is refused as an invalid alpha before any
      directory is created. */
  lemma AlphaTwoRejected(args: Args, host: Host)
    requires args.stereoRectify == "CAM1,2"
    requires host.atof("2") == Finite(2.0)
    ensures Construct(args, host) == Construction(Failure(InvalidAlpha), host.dirs)
  {
    assert "CAM1,2" == "CAM1" + "," + "2";
    LabelAlphaRoundTrip("CAM1", "2");
  }

  /** An argument with three non-empty comma-free fields is refused before
      any directory is created, whatever the fields say. */
  lemma ThreeFieldsRejected(args: Args, host: Host, x: string, y: string, z: string)
    requires |x| > 0 && DelimFree(x, {','})
    requires |y| > 0 && DelimFree(y, {','})
    requires |z| > 0 && DelimFree(z, {','})
    requires args.stereoRectify == x + "," + y + "," + z
    ensures Construct(args, host) == Construction(Failure(MalformedRectifyArg), host.dirs)
  {
    assert args.stereoRectify == x + [','] + (y + "," + z);
    TokenizeSplit(x, ',', y + "," + z, {','});
    TokenizePair(y, ',', z, {','});
    TokenizeSingle(x, {','});
  }
}

=== FILE: processor.dfy ===
/** The per-observation logic of the `--stereo-rectify` operator and the
    fold that drives it over a rawlog.

    The processor state is the rectification map, either not yet built or
    built once from the first matching stereo observation, and the count of
    rectified observations. The geometry of `CStereoRectifyMap::rectify` and
    the `%f` text of a timestamp are opaque functions held in `Env`. */
module StereoRectify {
  import opened Wrappers
  import opened TextUtils
  import opened RectifyConfig
  import opened Rawlog

  /** What a built rectification map was made from: the alpha passed to
      `setAlpha`, the resize set at construction, and the calibration of
      the observation passed to `setFromCamParams`. */
  datatype MapParams = MapParams(alpha: Double, resize: Option<Size>, calib: StereoCalib)

  /** `CStereoRectifyMap`: `isSet()` is `Ready?`. */
  datatype RectifyMap = Unset(resize: Option<Size>) | Ready(params: MapParams)

  /** What rectifying a stereo observation produces: both rectified images
      and the calibration of the rectified, row-aligned pair. */
  datatype RectifiedPair = RectifiedPair(left: Pixels, right: Pixels, calib: StereoCalib)

  /** The configuration plus the opaque collaborators: `rectify` is the
      map's rectification of an observation, `timeText` renders a timestamp
      as the `%f` text of its `time_t` value. */
  datatype Env = Env(cfg: Config, rectify: (MapParams, Observation) -> RectifiedPair, timeText: nat -> string)

  datatype ProcState = ProcState(rectifyMap: RectifyMap, changedCams: nat)

  /** An image file written under the output directory. */
  datatype FileWrite = FileWrite(path: string, pixels: Pixels)

  /** What `processOneObservation` returns (`keep`), the state after it,
      the observation as modified in place, and the files it wrote. */
  datatype StepResult = StepResult(keep: bool, state: ProcState, obs: Observation, writes: seq<FileWrite>)

  /** The state right after construction: map not built (only its resize
      set), no observation changed. */
  function InitialState(cfg: Config): ProcState
  {
    ProcState(Unset(cfg.resize), 0)
  }

  /** An observation is rectified when its label equals the target label
      ignoring case and it is a stereo-image observation. */
  predicate Matches(target: string, o: Observation)
  {
    EqualsIgnoreCase(o.sensorLabel, target) && o.body.StereoImages?
  }

  /** `<sensorLabel>_<time>`, the stem shared by both image names. */
  function LabelTime(env: Env, o: Observation): string
  {
    o.sensorLabel + "_" + env.timeText(o.timestamp)
  }

  function LeftFileName(labelTime: string, ext: string): string
  {
    "img_" + labelTime + "_left." + ext
  }

  function RightFileName(labelTime: string, ext: string): string
  {
    "img_" + labelTime + "_right." + ext
  }

  /** With the same extension a left name is never a right name, whatever
      the two stems: three characters before the extension they read `f`
      (from `_left.`) and `h` (from `_right.`). */
  lemma {:induction false} LeftNeverRight(lt1: string, lt2: string, ext: string)
    ensures LeftFileName(lt1, ext) != RightFileName(lt2, ext)
  {
    var l := LeftFileName(lt1, ext);
    var r := RightFileName(lt2, ext);
    assert l == ("img_" + lt1 + "_lef") + "t." + ext;
    assert r == ("img_" + lt2 + "_righ") + "t." + ext;
    assert l[|l| - |ext| - 3] == 'f';
    assert r[|r| - |ext| - 3] == 'h';
  }

  /** Names with the same extension coincide only when their stems do. */
  lemma {:induction false} FileNamesInjective(lt1: string, lt2: string, ext: string)
    ensures LeftFileName(lt1, ext) == LeftFileName(lt2, ext) ==> lt1 == lt2
    ensures RightFileName(lt1, ext) == RightFileName(lt2, ext) ==> lt1 == lt2
  {
    if LeftFileName(lt1, ext) == LeftFileName(lt2, ext) {
      var n := LeftFileName(lt1, ext);
      assert |lt1| == |lt2|;
      assert n[4..4 + |lt1|] == lt1;
      assert LeftFileName(lt2, ext)[4..4 + |lt2|] == lt2;
    }
    if RightFileName(lt1, ext) == RightFileName(lt2, ext) {
      var n := RightFileName(lt1, ext);
      assert |lt1| == |lt2|;
      assert n[4..4 + |lt1|] == lt1;
      assert RightFileName(lt2, ext)[4..4 + |lt2|] == lt2;
    }
  }

  /** Both names start with `img_<sensorLabel>_` and end with `.<ext>`. */
  lemma FileNamesEncodeLabel(env: Env, o: Observation)
    ensures var prefix := "img_" + o.sensorLabel + "_";
            var l := LeftFileName(LabelTime(env, o), env.cfg.imageExt);
            var r := RightFileName(LabelTime(env, o), env.cfg.imageExt);
            && |l| > |prefix| && l[..|prefix|] == prefix
            && |r| > |prefix| && r[..|prefix|] == prefix
            && l[|l| - |env.cfg.imageExt| - 1..] == "." + env.cfg.imageExt
            && r[|r| - |env.cfg.imageExt| - 1..] == "." + env.cfg.imageExt
  {
  }

  /** The map used for a matching observation: the built one, or on the
      first occasion one built from this observation's calibration with
      the configured alpha. */
  function MapFor(m: RectifyMap, alpha: Double, o: Observation): MapParams
    requires o.body.StereoImages?
  {
    match m
    case Ready(p) => p
    case Unset(resize) => MapParams(alpha, resize, o.body.calib)
  }

  /** A matching observation after rectification and externalisation:
      same label and timestamp, both images replaced by file names, the
      calibration replaced by the rectified one. */
  function Rectified(env: Env, p: MapParams, o: Observation): Observation
  {
    var pair := env.rectify(p, o);
    var lt := LabelTime(env, o);
    Observation(o.sensorLabel, o.timestamp,
                StereoImages(External(LeftFileName(lt, env.cfg.imageExt)),
                             External(RightFileName(lt, env.cfg.imageExt)),
                             pair.calib))
  }

  /** The two image files written for a matching observation. */
  function ImageWrites(env: Env, p: MapParams, o: Observation): seq<FileWrite>
  {
    var pair := env.rectify(p, o);
    var lt := LabelTime(env, o);
    [FileWrite(env.cfg.outDir + LeftFileName(lt, env.cfg.imageExt), pair.left),
     FileWrite(env.cfg.outDir + RightFileName(lt, env.cfg.imageExt), pair.right)]
  }

  /** `processOneObservation`. Anything that does not match leaves state,
      observation and file system alone. A match builds the map if and only
      if it was not built yet, rectifies with it, writes the two images
      under the output directory, stores their names (which differ) in the
      observation and counts one more change. The result is always `true`. */
  function ProcessOneObservation(env: Env, st: ProcState, o: Observation): (r: StepResult)
    ensures r.keep
    ensures !Matches(env.cfg.targetLabel, o) ==> r.state == st && r.obs == o && r.writes == []
    ensures Matches(env.cfg.targetLabel, o) ==>
              && r.state.changedCams == st.changedCams + 1
              && r.state.rectifyMap.Ready?
              && (st.rectifyMap.Ready? ==> r.state.rectifyMap == st.rectifyMap)
              && (st.rectifyMap.Unset? ==> r.state.rectifyMap.params == MapParams(env.cfg.alpha, st.rectifyMap.resize, o.body.calib))
              && r.obs.sensorLabel == o.sensorLabel && r.obs.timestamp == o.timestamp
              && r.obs.body.StereoImages?
              && r.obs.body.calib == env.rectify(r.state.rectifyMap.params, o).calib
              && r.obs.body.imageLeft.External? && r.obs.body.imageRight.External?
              && r.obs.body.imageLeft.fileName != r.obs.body.imageRight.fileName
              && r.obs.body.imageLeft.fileName == LeftFileName(LabelTime(env, o), env.cfg.imageExt)
              && r.obs.body.imageRight.fileName == RightFileName(LabelTime(env, o), env.cfg.imageExt)
              && r.writes == [FileWrite(env.cfg.outDir + r.obs.body.imageLeft.fileName, env.rectify(r.state.rectifyMap.params, o).left),
                              FileWrite(env.cfg.outDir + r.obs.body.imageRight.fileName, env.rectify(r.state.rectifyMap.params, o).right)]
  {
    if !Matches(env.cfg.targetLabel, o) then StepResult(true, st, o, [])
    else
      var p := MapFor(st.rectifyMap, env.cfg.alpha, o);
      LeftNeverRight(LabelTime(env, o), LabelTime(env, o), env.cfg.imageExt);
      StepResult(true, ProcState(Ready(p), st.changedCams + 1), Rectified(env, p, o), ImageWrites(env, p, o))
  }

  datatype PostProcessError = AssertionFailed

  /** `OnPostProcess`: asserts `(actions && SF) || obs`, then writes the
      actions and the frame when there are actions, else the observation. */
  function OnPostProcess(actions: Option<ActionCollection>, sf: Option<SensoryFrame>, obs: Option<Observation>)
    : (r: Result<seq<Entry>, PostProcessError>)
    ensures r.Success? <==> (actions.Some? && sf.Some?) || obs.Some?
    ensures r.Success? && actions.Some? ==> |r.value| == 2 && r.value[0] == ActionsEntry(actions.value)
    ensures r.Success? && actions.Some? && sf.Some? ==> r.value[1] == FrameEntry(sf.value)
    ensures r.Success? && actions.Some? && sf.None? ==> r.value[1] == NullEntry
    ensures r.Success? && actions.Some? ==> forall e :: e in r.value ==> !e.ObservationEntry?
    ensures r.Success? && actions.None? ==> r.value == [ObservationEntry(obs.value)]
  {
    if !((actions.Some? && sf.Some?) || obs.Some?) then Failure(AssertionFailed)
    else if actions.Some? then
      Success([ActionsEntry(actions.value), if sf.Some? then FrameEntry(sf.value) else NullEntry])
    else Success([ObservationEntry(obs.value)])
  }

  /** The entries written for one record the reader delivered. */
  function Emit(rec: Record): seq<Entry>
  {
    match rec
    case ActionsAndFrame(a, f) => OnPostProcess(Some(a), Some(f), None).value
    case Standalone(o) => OnPostProcess(None, None, Some(o)).value
  }

  /** The output rawlog: every record's entries, in record order. */
  function Serialize(records: seq<Record>): seq<Entry>
  {
    if |records| == 0 then [] else Emit(records[0]) + Serialize(records[1..])
  }

  /** Reading the output rawlog back gives exactly the records written:
      same number, same order, same action/frame bundling. */
  lemma {:induction false} ReadBackSerialize(records: seq<Record>)
    ensures ReadBack(Serialize(records)) == Some(records)
    decreases |records|
  {
    if |records| > 0 {
      ReadBackSerialize(records[1..]);
      var e := Emit(records[0]);
      var s := Serialize(records);
      assert s == e + Serialize(records[1..]);
      match records[0]
      case ActionsAndFrame(a, f) =>
        assert s[2..] == Serialize(records[1..]);
      case Standalone(o) =>
        assert s[1..] == Serialize(records[1..]);
    }
    assert records == (if |records| == 0 then [] else [records[0]] + records[1..]);
  }

  /** The outcome of folding the step over a sequence of observations. */
  datatype StreamRun = StreamRun(state: ProcState, out: seq<Observation>, writes: seq<FileWrite>)

  /** Steps through observations in order; an observation the step does not
      keep would be dropped. Nothing is dropped, so the output has one
      observation per input observation. */
  function ProcessStream(env: Env, st: ProcState, obs: seq<Observation>): (r: StreamRun)
    ensures |r.out| == |obs|
    decreases |obs|
  {
    if |obs| == 0 then StreamRun(st, [], [])
    else
      var s := ProcessOneObservation(env, st, obs[0]);
      var rest := ProcessStream(env, s.state, obs[1..]);
      StreamRun(rest.state, (if s.keep then [s.obs] else []) + rest.out, s.writes + rest.writes)
  }

  /** The outcome of processing one record. */
  datatype RecordRun = RecordRun(state: ProcState, record: Record, writes: seq<FileWrite>)

  /** One record: a standalone observation gets one step, a sensory frame
      gets a step per observation, in frame order. */
  function ProcessRecord(env: Env, st: ProcState, rec: Record): (r: RecordRun)
    ensures rec.Standalone? <==> r.record.Standalone?
    ensures rec.ActionsAndFrame? ==> r.record.actions == rec.actions
                                     && |r.record.frame.observations| == |rec.frame.observations|
  {
    match rec
    case Standalone(o) =>
      var s := ProcessOneObservation(env, st, o);
      RecordRun(s.state, Standalone(s.obs), s.writes)
    case ActionsAndFrame(a, f) =>
      var run := ProcessStream(env, st, f.observations);
      RecordRun(run.state, ActionsAndFrame(a, SensoryFrame(run.out)), run.writes)
  }

  /** The outcome of processing a whole rawlog. */
  datatype LogRun = LogRun(state: ProcState, out: seq<Record>, writes: seq<FileWrite>)

  predicate SameShape(a: Record, b: Record)
  {
    match (a, b)
    case (Standalone(_), Standalone(_)) => true
    case (ActionsAndFrame(x, f), ActionsAndFrame(y, g)) => x == y && |f.observations| == |g.observations|
    case _ => false
  }

  /** Processes the records in order and returns the processed records;
      `Serialize` writes them through `OnPostProcess`. One output record per
      input record, in order and in the same shape. */
  function ProcessLog(env: Env, st: ProcState, records: seq<Record>): (r: LogRun)
    ensures |r.out| == |records|
    ensures forall i :: 0 <= i < |records| ==> SameShape(records[i], r.out[i])
    decreases |records|
  {
    if |records| == 0 then LogRun(st, [], [])
    else
      var rr := ProcessRecord(env, st, records[0]);
      var rest := ProcessLog(env, rr.state, records[1..]);
      LogRun(rest.state, [rr.record] + rest.out, rr.writes + rest.writes)
  }

  /** The whole operator on a rawlog, from the freshly constructed state. */
  function Run(env: Env, records: seq<Record>): LogRun
  {
    ProcessLog(env, InitialState(env.cfg), records)
  }
}

=== FILE: proofs.dfy ===
/** Properties of a whole run of the `--stereo-rectify` operator, stated
    against independent reference definitions: the number of matching
    observations in the stream, and the first of them. */
module StereoRectifyProofs {
  import opened Wrappers
  import opened TextUtils
  import opened RectifyConfig
  import opened Rawlog
  import opened StereoRectify

  /** How many observations of the stream match the target. */
  function CountMatches(target: string, obs: seq<Observation>): nat
    decreases |obs|
  {
    if |obs| == 0 then 0
    else (if Matches(target, obs[0]) then 1 else 0) + CountMatches(target, obs[1..])
  }

  /** Position of the first matching observation in the stream, if any. */
  function FirstMatch(target: string, obs: seq<Observation>): (r: Option<nat>)
    ensures r.Some? ==> r.value < |obs| && Matches(target, obs[r.value])
                        && forall j :: 0 <= j < r.value ==> !Matches(target, obs[j])
    ensures r.None? <==> forall j :: 0 <= j < |obs| ==> !Matches(target, obs[j])
    decreases |obs|
  {
    if |obs| == 0 then None
    else if Matches(target, obs[0]) then Some(0)
    else match FirstMatch(target, obs[1..])
      case None => None
      case Some(k) => Some(k + 1)
  }

  /** The parameters every match of `obs` is rectified with, starting from
      map `m`: the built map's, or else those built from the first match;
      `None` when the map is unset and nothing matches. */
  function ParamsFor(env: Env, m: RectifyMap, obs: seq<Observation>): Option<MapParams>
  {
    match m
    case Ready(p) => Some(p)
    case Unset(resize) =>
      match FirstMatch(env.cfg.targetLabel, obs)
      case None => None
      case Some(k) => Some(MapParams(env.cfg.alpha, resize, obs[k].body.calib))
  }

  /** The observation the run outputs in place of `o`. */
  function Expected(env: Env, p: Option<MapParams>, o: Observation): Observation
  {
    if Matches(env.cfg.targetLabel, o) && p.Some? then Rectified(env, p.value, o) else o
  }

  /** Folding the step over a stream, from any state: the counter grows by
      the number of matches; the map is built at most once, from the first
      match, and never changes afterwards; every match is rectified with
      that one map; every other observation is output unchanged; two files
      are written per match. */
  lemma {:induction false} StreamFacts(env: Env, st: ProcState, obs: seq<Observation>)
    ensures var r := ProcessStream(env, st, obs);
            var p := ParamsFor(env, st.rectifyMap, obs);
            && r.state.changedCams == st.changedCams + CountMatches(env.cfg.targetLabel, obs)
            && (p.None? ==> r.state.rectifyMap == st.rectifyMap)
            && (p.Some? ==> r.state.rectifyMap == Ready(p.value))
            && (FirstMatch(env.cfg.targetLabel, obs).Some? ==> p.Some?)
            && (forall i :: 0 <= i < |obs| ==> r.out[i] == Expected(env, p, obs[i]))
            && |r.writes| == 2 * CountMatches(env.cfg.targetLabel, obs)
    decreases |obs|
  {
    var target := env.cfg.targetLabel;
    if |obs| > 0 {
      var s := ProcessOneObservation(env, st, obs[0]);
      var r := ProcessStream(env, st, obs);
      var rest := ProcessStream(env, s.state, obs[1..]);
      StreamFacts(env, s.state, obs[1..]);
      assert r.out == [s.obs] + rest.out;
      var p := ParamsFor(env, st.rectifyMap, obs);
      if Matches(target, obs[0]) {
        assert FirstMatch(target, obs) == Some(0);
        assert p == Some(MapFor(st.rectifyMap, env.cfg.alpha, obs[0]));
        assert ParamsFor(env, s.state.rectifyMap, obs[1..]) == p;
      } else {
        assert ParamsFor(env, s.state.rectifyMap, obs[1..]) == p;
      }
      forall i | 0 <= i < |obs|
        ensures r.out[i] == Expected(env, p, obs[i])
      {
        if i > 0 {
          assert obs[i] == obs[1..][i - 1];
        }
      }
    }
  }

  lemma {:induction false} StreamRunAppend(env: Env, st: ProcState, a: seq<Observation>, b: seq<Observation>)
    ensures var ra := ProcessStream(env, st, a);
            var rb := ProcessStream(env, ra.state, b);
            ProcessStream(env, st, a + b) == StreamRun(rb.state, ra.out + rb.out, ra.writes + rb.writes)
    decreases |a|
  {
    if |a| == 0 {
      assert a + b == b;
    } else {
      assert (a + b)[0] == a[0];
      assert (a + b)[1..] == a[1..] + b;
      var s := ProcessOneObservation(env, st, a[0]);
      StreamRunAppend(env, s.state, a[1..], b);
    }
  }

  /** Processing record by record is processing the observation stream:
      same final state, same observations out, same files written. */
  lemma {:induction false} LogIsStream(env: Env, st: ProcState, records: seq<Record>)
    ensures var r := ProcessLog(env, st, records);
            var s := ProcessStream(env, st, Stream(records));
            r.state == s.state && Stream(r.out) == s.out && r.writes == s.writes
    decreases |records|
  {
    if |records| > 0 {
      var rr := ProcessRecord(env, st, records[0]);
      var r := ProcessLog(env, st, records);
      LogIsStream(env, rr.state, records[1..]);
      var head := match records[0]
        case ActionsAndFrame(_, f) => f.observations
        case Standalone(o) => [o];
      assert Stream(records) == head + Stream(records[1..]);
      StreamRunAppend(env, st, head, Stream(records[1..]));
      assert ProcessStream(env, st, head) == StreamRun(rr.state, Stream([rr.record]), rr.writes) by {
        match records[0]
        case ActionsAndFrame(_, f) =>
        case Standalone(o) =>
          assert head[1..] == [];
      }
      assert r.out == [rr.record] + ProcessLog(env, rr.state, records[1..]).out;
      Rawlog.StreamAppend([rr.record], ProcessLog(env, rr.state, records[1..]).out);
    }
  }

  /** The run's counter equals the number of matching observations. */
  lemma RunCountsMatches(env: Env, records: seq<Record>)
    ensures Run(env, records).state.changedCams == CountMatches(env.cfg.targetLabel, Stream(records))
  {
    LogIsStream(env, InitialState(env.cfg), records);
    StreamFacts(env, InitialState(env.cfg), Stream(records));
  }

  /** The map is built exactly when some observation matches, and then from
      the calibration of the first match in stream order, with the
      configured alpha and resize. */
  lemma RunBuildsMapFromFirstMatch(env: Env, records: seq<Record>)
    ensures var s := Stream(records);
            var m := Run(env, records).state.rectifyMap;
            match FirstMatch(env.cfg.targetLabel, s)
            case None => m == Unset(env.cfg.resize)
            case Some(k) => m == Ready(MapParams(env.cfg.alpha, env.cfg.resize, s[k].body.calib))
  {
    LogIsStream(env, InitialState(env.cfg), records);
    StreamFacts(env, InitialState(env.cfg), Stream(records));
  }

  /** Every matching observation of the output is the input observation
      rectified with the one map built from the first match, and every
      other observation is passed through unchanged. */
  lemma RunOutput(env: Env, records: seq<Record>)
    ensures var s := Stream(records);
            var out := Stream(Run(env, records).out);
            && |out| == |s|
            && (forall i :: 0 <= i < |s| && !Matches(env.cfg.targetLabel, s[i]) ==> out[i] == s[i])
            && (forall i :: 0 <= i < |s| && Matches(env.cfg.targetLabel, s[i]) ==>
                  FirstMatch(env.cfg.targetLabel, s).Some? &&
                  out[i] == Rectified(env, MapParams(env.cfg.alpha, env.cfg.resize,
                                                     s[FirstMatch(env.cfg.targetLabel, s).value].body.calib), s[i]))
  {
    var s := Stream(records);
    LogIsStream(env, InitialState(env.cfg), records);
    StreamFacts(env, InitialState(env.cfg), s);
    forall i | 0 <= i < |s| && Matches(env.cfg.targetLabel, s[i])
      ensures FirstMatch(env.cfg.targetLabel, s).Some?
    {
    }
  }

  /** The output rawlog holds one record per input record, in order, with
      the same action/frame bundling, and reading it back yields exactly the
      processed records. */
  lemma RunPreservesRecords(env: Env, records: seq<Record>)
    ensures var out := Run(env, records).out;
            && |out| == |records|
            && (forall i :: 0 <= i < |records| ==> SameShape(records[i], out[i]))
            && ReadBack(Serialize(out)) == Some(out)
  {
    ReadBackSerialize(Run(env, records).out);
  }

  /** A record none of whose observations match is written out exactly as
      it was read, from any state. */
  lemma {:induction false} UntouchedRecords(env: Env, st: ProcState, records: seq<Record>)
    ensures var out := ProcessLog(env, st, records).out;
            forall i :: 0 <= i < |records| && NoMatchIn(env.cfg.targetLabel, records[i]) ==> out[i] == records[i]
    decreases |records|
  {
    if |records| > 0 {
      var rr := ProcessRecord(env, st, records[0]);
      UntouchedRecords(env, rr.state, records[1..]);
      var out := ProcessLog(env, st, records).out;
      assert out == [rr.record] + ProcessLog(env, rr.state, records[1..]).out;
      if NoMatchIn(env.cfg.targetLabel, records[0]) {
        match records[0]
        case Standalone(o) =>
        case ActionsAndFrame(a, f) =>
          StreamFacts(env, st, f.observations);
          assert FirstMatch(env.cfg.targetLabel, f.observations).None?;
          assert rr.record.frame.observations == f.observations;
      }
      forall i | 0 <= i < |records| && NoMatchIn(env.cfg.targetLabel, records[i])
        ensures out[i] == records[i]
      {
        if i > 0 {
          assert records[i] == records[1..][i - 1];
        }
      }
    }
  }

  predicate NoMatchIn(target: string, rec: Record)
  {
    match rec
    case Standalone(o) => !Matches(target, o)
    case ActionsAndFrame(_, f) => forall j :: 0 <= j < |f.observations| ==> !Matches(target, f.observations[j])
  }

  /** `path` is where the run stores one of the two images of `o`. */
  predicate WrittenFor(env: Env, path: string, o: Observation)
  {
    && Matches(env.cfg.targetLabel, o)
    && (|| path == env.cfg.outDir + LeftFileName(LabelTime(env, o), env.cfg.imageExt)
        || path == env.cfg.outDir + RightFileName(LabelTime(env, o), env.cfg.imageExt))
  }

  /** `path` is one of the image paths of some matching observation of `obs`. */
  ghost predicate WrittenForSome(env: Env, path: string, obs: seq<Observation>)
  {
    exists i :: 0 <= i < |obs| && WrittenFor(env, path, obs[i])
  }

  /** Every file the run writes is `<outDir>img_<label>_<time>_left.<ext>`
      or `..._right.<ext>` for some matching observation of the stream. */
  lemma {:induction false} WritesNameMatches(env: Env, st: ProcState, obs: seq<Observation>)
    ensures forall k :: 0 <= k < |ProcessStream(env, st, obs).writes| ==>
              WrittenForSome(env, ProcessStream(env, st, obs).writes[k].path, obs)
    decreases |obs|
  {
    if |obs| > 0 {
      var s := ProcessOneObservation(env, st, obs[0]);
      WritesNameMatches(env, s.state, obs[1..]);
      var w := ProcessStream(env, st, obs).writes;
      var rest := ProcessStream(env, s.state, obs[1..]).writes;
      assert w == s.writes + rest;
      forall k | 0 <= k < |w|
        ensures WrittenForSome(env, w[k].path, obs)
      {
        if k < |s.writes| {
          assert WrittenFor(env, w[k].path, obs[0]);
        } else {
          var k' := k - |s.writes|;
          assert w[k] == rest[k'];
          assert WrittenForSome(env, rest[k'].path, obs[1..]);
          var i :| 0 <= i < |obs[1..]| && WrittenFor(env, rest[k'].path, obs[1..][i]);
          assert obs[1..][i] == obs[i + 1];
          assert WrittenFor(env, w[k].path, obs[i + 1]);
        }
      }
    }
  }

  /** The converse of `WritesNameMatches`: both image files of every
      matching observation are written, holding its images rectified with
      the one map of the run. */
  lemma {:induction false} EveryMatchWritten(env: Env, st: ProcState, obs: seq<Observation>)
    ensures var p := ParamsFor(env, st.rectifyMap, obs);
            forall i :: 0 <= i < |obs| && Matches(env.cfg.targetLabel, obs[i]) ==>
              && p.Some?
              && ImageWrites(env, p.value, obs[i])[0] in ProcessStream(env, st, obs).writes
              && ImageWrites(env, p.value, obs[i])[1] in ProcessStream(env, st, obs).writes
    decreases |obs|
  {
    if |obs| > 0 {
      var target := env.cfg.targetLabel;
      var s := ProcessOneObservation(env, st, obs[0]);
      EveryMatchWritten(env, s.state, obs[1..]);
      StreamFacts(env, st, obs);
      var p := ParamsFor(env, st.rectifyMap, obs);
      if Matches(target, obs[0]) {
        assert FirstMatch(target, obs) == Some(0);
      }
      assert ParamsFor(env, s.state.rectifyMap, obs[1..]) == p;
      var w := ProcessStream(env, st, obs).writes;
      var rest := ProcessStream(env, s.state, obs[1..]).writes;
      assert w == s.writes + rest;
      forall i | 0 <= i < |obs| && Matches(target, obs[i])
        ensures p.Some? && ImageWrites(env, p.value, obs[i])[0] in w && ImageWrites(env, p.value, obs[i])[1] in w
      {
        if i > 0 {
          assert obs[i] == obs[1..][i - 1];
        }
      }
    }
  }

  /** Over a whole run, every file name the output rawlog stores for a
      matching observation names a file that was written under the output
      directory, holding that observation's image rectified with the map
      built from the first match. */
  lemma RunWritesEveryOutputImage(env: Env, records: seq<Record>)
    ensures var s := Stream(records);
            var out := Stream(Run(env, records).out);
            var w := Run(env, records).writes;
            forall i :: 0 <= i < |s| && Matches(env.cfg.targetLabel, s[i]) ==>
              && FirstMatch(env.cfg.targetLabel, s).Some?
              && i < |out| && out[i].body.StereoImages?
              && out[i].body.imageLeft.External? && out[i].body.imageRight.External?
              && var p := MapParams(env.cfg.alpha, env.cfg.resize, s[FirstMatch(env.cfg.targetLabel, s).value].body.calib);
                 && FileWrite(env.cfg.outDir + out[i].body.imageLeft.fileName, env.rectify(p, s[i]).left) in w
                 && FileWrite(env.cfg.outDir + out[i].body.imageRight.fileName, env.rectify(p, s[i]).right) in w
  {
    var s := Stream(records);
    LogIsStream(env, InitialState(env.cfg), records);
    StreamFacts(env, InitialState(env.cfg), s);
    EveryMatchWritten(env, InitialState(env.cfg), s);
  }

  /** When the matching observations carry pairwise different
      `<label>_<time>` stems, no two written paths are equal as strings.
      Stems that differ only in letter case count as different here. */
  lemma {:induction false} NoImageOverwritten(env: Env, st: ProcState, obs: seq<Observation>)
    requires forall i, j :: 0 <= i < j < |obs| && Matches(env.cfg.targetLabel, obs[i]) && Matches(env.cfg.targetLabel, obs[j])
               ==> LabelTime(env, obs[i]) != LabelTime(env, obs[j])
    ensures forall a, b :: 0 <= a < b < |ProcessStream(env, st, obs).writes| ==>
              ProcessStream(env, st, obs).writes[a].path != ProcessStream(env, st, obs).writes[b].path
    decreases |obs|
  {
    if |obs| > 0 {
      var target := env.cfg.targetLabel;
      var dir := env.cfg.outDir;
      var ext := env.cfg.imageExt;
      var s := ProcessOneObservation(env, st, obs[0]);
      forall i, j | 0 <= i < j < |obs[1..]| && Matches(target, obs[1..][i]) && Matches(target, obs[1..][j])
        ensures LabelTime(env, obs[1..][i]) != LabelTime(env, obs[1..][j])
      {
        assert obs[1..][i] == obs[i + 1] && obs[1..][j] == obs[j + 1];
      }
      NoImageOverwritten(env, s.state, obs[1..]);
      WritesNameMatches(env, s.state, obs[1..]);
      var w := ProcessStream(env, st, obs).writes;
      var rest := ProcessStream(env, s.state, obs[1..]).writes;
      assert w == s.writes + rest;
      if Matches(target, obs[0]) {
        var lt0 := LabelTime(env, obs[0]);
        forall k | 0 <= k < |rest|
          ensures rest[k].path != dir + LeftFileName(lt0, ext) && rest[k].path != dir + RightFileName(lt0, ext)
        {
          assert WrittenForSome(env, rest[k].path, obs[1..]);
          var i :| 0 <= i < |obs[1..]| && WrittenFor(env, rest[k].path, obs[1..][i]);
          var lt := LabelTime(env, obs[1..][i]);
          assert obs[1..][i] == obs[i + 1];
          assert lt != lt0;
          FileNamesInjective(lt, lt0, ext);
          LeftNeverRight(lt, lt0, ext);
          LeftNeverRight(lt0, lt, ext);
          PrefixCancel(dir, LeftFileName(lt, ext), LeftFileName(lt0, ext));
          PrefixCancel(dir, LeftFileName(lt, ext), RightFileName(lt0, ext));
          PrefixCancel(dir, RightFileName(lt, ext), LeftFileName(lt0, ext));
          PrefixCancel(dir, RightFileName(lt, ext), RightFileName(lt0, ext));
        }
        PrefixCancel(dir, LeftFileName(lt0, ext), RightFileName(lt0, ext));
      }
    }
  }

  /** The run-level form: distinct `<label>_<time>` stems among the
      matching observations of the rawlog mean no two written images share
      a path. */
  lemma RunWritesDistinctFiles(env: Env, records: seq<Record>)
    requires var s := Stream(records);
             forall i, j :: 0 <= i < j < |s| && Matches(env.cfg.targetLabel, s[i]) && Matches(env.cfg.targetLabel, s[j])
               ==> LabelTime(env, s[i]) != LabelTime(env, s[j])
    ensures forall a, b :: 0 <= a < b < |Run(env, records).writes| ==>
              Run(env, records).writes[a].path != Run(env, records).writes[b].path
  {
    LogIsStream(env, InitialState(env.cfg), records);
    NoImageOverwritten(env, InitialState(env.cfg), Stream(records));
  }

  lemma PrefixCancel(dir: string, x: string, y: string)
    ensures dir + x == dir + y ==> x == y
  {
    if dir + x == dir + y {
      assert (dir + x)[|dir|..] == x;
      assert (dir + y)[|dir|..] == y;
    }
  }

  /** The end-to-end case: three standalone observations labelled `CAM1`,
      `CAM1` and `OTHER`, the first two stereo, target `CAM1`. Two records
      are rectified (with the map built from the first), four files are
      written, and the third record is untouched. */
  lemma ThreeRecordScenario(env: Env, o1: Observation, o2: Observation, o3: Observation)
    requires env.cfg.targetLabel == "CAM1"
    requires o1.sensorLabel == "CAM1" && o1.body.StereoImages?
    requires o2.sensorLabel == "CAM1" && o2.body.StereoImages?
    requires o3.sensorLabel == "OTHER"
    ensures var records := [Standalone(o1), Standalone(o2), Standalone(o3)];
            var run := Run(env, records);
            var p := MapParams(env.cfg.alpha, env.cfg.resize, o1.body.calib);
            && run.state.changedCams == 2
            && run.state.rectifyMap == Ready(p)
            && run.out == [Standalone(Rectified(env, p, o1)), Standalone(Rectified(env, p, o2)), Standalone(o3)]
            && |run.writes| == 4
  {
    var records := [Standalone(o1), Standalone(o2), Standalone(o3)];
    EqualsIgnoreCaseIsEquivalence("CAM1", "CAM1", "CAM1");
    assert !EqualsIgnoreCase("OTHER", "CAM1");
    var p := MapParams(env.cfg.alpha, env.cfg.resize, o1.body.calib);
    var st0 := InitialState(env.cfg);
    var st1 := ProcState(Ready(p), 1);
    var st2 := ProcState(Ready(p), 2);
    assert ProcessRecord(env, st0, Standalone(o1)) == RecordRun(st1, Standalone(Rectified(env, p, o1)), ImageWrites(env, p, o1));
    assert ProcessRecord(env, st1, Standalone(o2)) == RecordRun(st2, Standalone(Rectified(env, p, o2)), ImageWrites(env, p, o2));
    assert ProcessRecord(env, st2, Standalone(o3)) == RecordRun(st2, Standalone(o3), []);
    assert records[1..] == [Standalone(o2), Standalone(o3)];
    assert records[1..][1..] == [Standalone(o3)];
    assert records[1..][1..][1..] == [];
    assert ProcessLog(env, st2, [Standalone(o3)]) == LogRun(st2, [Standalone(o3)], []);
    assert ProcessLog(env, st1, records[1..]) == LogRun(st2, [Standalone(Rectified(env, p, o2)), Standalone(o3)], ImageWrites(env, p, o2));
  }

  /** A battery-state observation carrying the target label is passed
      through: no change counted, map left unbuilt, no file written. */
  lemma BatteryStatePassesThrough(env: Env, st: ProcState, o: Observation)
    requires EqualsIgnoreCase(o.sensorLabel, env.cfg.targetLabel)
    requires o.body.BatteryState?
    ensures ProcessOneObservation(env, st, o) == StepResult(true, st, o, [])
  {
  }
}

=== FILE: rawlog.dfy ===
/** The rawlog entities the operator touches: observations (only the stereo
    variant is looked into), the records the rawlog reader hands over
    (an action collection with its sensory frame, or a standalone
    observation), and the entries written to the output rawlog. */
module Rawlog {
  import opened Wrappers

  /** An in-memory image buffer. */
  datatype Pixels = Pixels(cols: nat, rows: nat, data: seq<int>)

  /** An image field of an observation: pixels held in the record, or the
      name of the file that holds them once stored externally. */
  datatype Image = Inline(pixels: Pixels) | External(fileName: string)

  datatype CameraParams = CameraParams(intrinsics: seq<real>, distortion: seq<real>)

  /** Both cameras' calibration plus the pose of the right camera relative
      to the left one. */
  datatype StereoCalib = StereoCalib(leftCamera: CameraParams, rightCamera: CameraParams, rightCameraPose: seq<real>)

  /** What a particular observation class carries. The battery record is one
      of the many kinds the operator passes through untouched. */
  datatype ObsBody =
    | StereoImages(imageLeft: Image, imageRight: Image, calib: StereoCalib)
    | BatteryState(voltageMainRobotBattery: real, voltageMainRobotComputer: real,
                   voltageMainRobotBatteryIsValid: bool, voltageMainRobotComputerIsValid: bool,
                   voltageOtherBatteries: seq<real>, voltageOtherBatteriesValid: seq<bool>)
    | OtherSensor(className: string)

  /** Every observation has a sensor label and a timestamp (in the rawlog's
      integer time units). */
  datatype Observation = Observation(sensorLabel: string, timestamp: nat, body: ObsBody)

  datatype Action = Action(className: string, data: seq<real>)
  datatype ActionCollection = ActionCollection(actions: seq<Action>)
  datatype SensoryFrame = SensoryFrame(observations: seq<Observation>)

  /** One unit delivered by the rawlog reader. */
  datatype Record =
    | ActionsAndFrame(actions: ActionCollection, frame: SensoryFrame)
    | Standalone(obs: Observation)

  /** One object written to the output rawlog stream. `NullEntry` is what
      writing an empty smart pointer produces. */
  datatype Entry =
    | ActionsEntry(actions: ActionCollection)
    | FrameEntry(frame: SensoryFrame)
    | ObservationEntry(obs: Observation)
    | NullEntry

  /** The observations of a rawlog in stream order: a frame's observations
      in frame order, a standalone observation by itself. */
  function Stream(records: seq<Record>): seq<Observation>
  {
    if |records| == 0 then []
    else
      (match records[0]
       case ActionsAndFrame(_, f) => f.observations
       case Standalone(o) => [o]) + Stream(records[1..])
  }

  lemma {:induction false} StreamAppend(a: seq<Record>, b: seq<Record>)
    ensures Stream(a + b) == Stream(a) + Stream(b)
    decreases |a|
  {
    if |a| == 0 {
      assert a + b == b;
    } else {
      assert (a + b)[0] == a[0];
      assert (a + b)[1..] == a[1..] + b;
      StreamAppend(a[1..], b);
    }
  }

  /** Reads records back from the entries of an output rawlog: an actions
      entry must be followed by its frame, an observation entry stands
      alone. `None` for any other sequence. */
  function ReadBack(entries: seq<Entry>): (r: Option<seq<Record>>)
    decreases |entries|
  {
    if |entries| == 0 then Some([])
    else match entries[0]
      case ObservationEntry(o) =>
        (match ReadBack(entries[1..])
         case Some(rest) => Some([Standalone(o)] + rest)
         case None => None)
      case ActionsEntry(a) =>
        if |entries| >= 2 && entries[1].FrameEntry? then
          match ReadBack(entries[2..])
          case Some(rest) => Some([ActionsAndFrame(a, entries[1].frame)] + rest)
          case None => None
        else None
      case _ => None
  }
}

=== FILE: text.dfy ===
/** The two string helpers the operator leans on: `tokenize`, which splits a
    string on a set of delimiter characters the way `strtok` does (runs of
    delimiters collapse, no empty token is ever produced), and `strCmpI`, an
    ASCII case-insensitive equality in the manner of `strcasecmp`. */
module TextUtils {

  /** True when no character of `t` is a delimiter. */
  predicate DelimFree(t: string, delims: set<char>)
  {
    forall i :: 0 <= i < |t| ==> t[i] !in delims
  }

  /** Length of the longest prefix of `s` made of non-delimiter characters. */
  function TokenLength(s: string, delims: set<char>): (n: nat)
    ensures n <= |s|
    ensures DelimFree(s[..n], delims)
    ensures n < |s| ==> s[n] in delims
  {
    if |s| == 0 || s[0] in delims then 0
    else
      var m := TokenLength(s[1..], delims);
      assert s[1..][..m] == s[1..1 + m];
      1 + m
  }

  /** `s` with every delimiter character removed. */
  function RemoveDelims(s: string, delims: set<char>): string
  {
    if |s| == 0 then []
    else (if s[0] in delims then [] else [s[0]]) + RemoveDelims(s[1..], delims)
  }

  /** The tokens written one after another. */
  function Concat(tokens: seq<string>): string
  {
    if |tokens| == 0 then [] else tokens[0] + Concat(tokens[1..])
  }

  lemma {:induction false} RemoveDelimsAppend(a: string, b: string, delims: set<char>)
    ensures RemoveDelims(a + b, delims) == RemoveDelims(a, delims) + RemoveDelims(b, delims)
    decreases |a|
  {
    if |a| > 0 {
      assert (a + b)[0] == a[0];
      assert (a + b)[1..] == a[1..] + b;
      RemoveDelimsAppend(a[1..], b, delims);
    } else {
      assert a + b == b;
    }
  }

  lemma {:induction false} RemoveDelimsOfFree(t: string, delims: set<char>)
    requires DelimFree(t, delims)
    ensures RemoveDelims(t, delims) == t
    decreases |t|
  {
    if |t| > 0 {
      RemoveDelimsOfFree(t[1..], delims);
    }
  }

  /** Splits `s` on the delimiter characters as `strtok` does: leading
      delimiters are skipped, every token is a maximal run of non-delimiter
      characters, and no empty token is produced. Every token is non-empty
      and free of delimiters, and together they hold exactly the
      non-delimiter characters of `s`, in order. */
  function Tokenize(s: string, delims: set<char>): (tokens: seq<string>)
    ensures forall k :: 0 <= k < |tokens| ==> |tokens[k]| > 0 && DelimFree(tokens[k], delims)
    ensures Concat(tokens) == RemoveDelims(s, delims)
    decreases |s|
  {
    if |s| == 0 then []
    else if s[0] in delims then Tokenize(s[1..], delims)
    else
      var n := TokenLength(s, delims);
      var rest := Tokenize(s[n..], delims);
      assert s == s[..n] + s[n..];
      RemoveDelimsAppend(s[..n], s[n..], delims);
      RemoveDelimsOfFree(s[..n], delims);
      [s[..n]] + rest
  }

  /** The leading run of `a + [d] + b` stops no later than the delimiter `d`. */
  lemma {:induction false} TokenLengthBeforeDelim(a: string, d: char, b: string, delims: set<char>)
    requires d in delims
    ensures TokenLength(a + [d] + b, delims) == TokenLength(a, delims)
    decreases |a|
  {
    if |a| > 0 {
      assert (a + [d] + b)[1..] == a[1..] + [d] + b;
      if a[0] !in delims {
        TokenLengthBeforeDelim(a[1..], d, b, delims);
      }
    }
  }

  /** One unfolding of `Tokenize` at a leading delimiter. */
  lemma TokenizeAtDelim(s: string, delims: set<char>)
    requires |s| > 0 && s[0] in delims
    ensures Tokenize(s, delims) == Tokenize(s[1..], delims)
  {
  }

  /** One unfolding of `Tokenize` at the start of a token. */
  lemma TokenizeAtToken(s: string, delims: set<char>)
    requires |s| > 0 && s[0] !in delims
    ensures Tokenize(s, delims) == [s[..TokenLength(s, delims)]] + Tokenize(s[TokenLength(s, delims)..], delims)
  {
  }

  /** Tokenising is compositional at a delimiter: the tokens of `a d b` are
      the tokens of `a` followed by those of `b`. */
  lemma {:induction false} TokenizeSplit(a: string, d: char, b: string, delims: set<char>)
    requires d in delims
    ensures Tokenize(a + [d] + b, delims) == Tokenize(a, delims) + Tokenize(b, delims)
    decreases |a|
  {
    var s := a + [d] + b;
    if |a| == 0 {
      assert s[1..] == b;
      TokenizeAtDelim(s, delims);
    } else if a[0] in delims {
      assert s[1..] == a[1..] + [d] + b;
      TokenizeSplit(a[1..], d, b, delims);
      TokenizeAtDelim(s, delims);
      TokenizeAtDelim(a, delims);
    } else {
      TokenLengthBeforeDelim(a, d, b, delims);
      var n := TokenLength(a, delims);
      assert s[..n] == a[..n];
      assert s[n..] == a[n..] + [d] + b;
      TokenizeSplit(a[n..], d, b, delims);
      TokenizeAtToken(s, delims);
      TokenizeAtToken(a, delims);
    }
  }

  /** A non-empty string without delimiters is one token. */
  lemma {:induction false} TokenizeSingle(t: string, delims: set<char>)
    requires |t| > 0 && DelimFree(t, delims)
    ensures Tokenize(t, delims) == [t]
  {
    assert t[0] !in delims;
    var n := TokenLength(t, delims);
    assert n == |t|;
    assert t[..n] == t;
    assert t[n..] == [];
    assert Tokenize(t, delims) == [t[..n]] + Tokenize(t[n..], delims);
  }

  /** `x d y` with non-empty delimiter-free `x`, `y` tokenises to exactly `[x, y]`:
      the round trip of writing two fields joined by a separator. */
  lemma TokenizePair(x: string, d: char, y: string, delims: set<char>)
    requires d in delims
    requires |x| > 0 && DelimFree(x, delims)
    requires |y| > 0 && DelimFree(y, delims)
    ensures Tokenize(x + [d] + y, delims) == [x, y]
  {
    TokenizeSplit(x, d, y, delims);
    TokenizeSingle(x, delims);
    TokenizeSingle(y, delims);
  }

  /** Lower-cases an ASCII letter and leaves every other character alone. */
  function ToLower(c: char): char
  {
    if 'A' <= c <= 'Z' then (c as int + 32) as char else c
  }

  /** The string with every ASCII letter lower-cased. */
  function Lower(s: string): string
  {
    seq(|s|, i requires 0 <= i < |s| => ToLower(s[i]))
  }

  /** `strCmpI`: equal length and equal characters after ASCII lower-casing. */
  predicate EqualsIgnoreCase(a: string, b: string)
  {
    |a| == |b| && forall i :: 0 <= i < |a| ==> ToLower(a[i]) == ToLower(b[i])
  }

  /** Case-insensitive equality is equality of the lower-cased strings. */
  lemma EqualsIgnoreCaseIffLowerEqual(a: string, b: string)
    ensures EqualsIgnoreCase(a, b) <==> Lower(a) == Lower(b)
  {
    if Lower(a) == Lower(b) {
      assert |a| == |Lower(a)| == |Lower(b)| == |b|;
      forall i | 0 <= i < |a|
        ensures ToLower(a[i]) == ToLower(b[i])
      {
        assert Lower(a)[i] == Lower(b)[i];
      }
    }
  }

  /** Case-insensitive equality is an equivalence relation, so "matches the
      target label" does not depend on how either side is capitalised. */
  lemma EqualsIgnoreCaseIsEquivalence(a: string, b: string, c: string)
    ensures EqualsIgnoreCase(a, a)
    ensures EqualsIgnoreCase(a, b) ==> EqualsIgnoreCase(b, a)
    ensures EqualsIgnoreCase(a, b) && EqualsIgnoreCase(b, c) ==> EqualsIgnoreCase(a, c)
  {
  }
}

=== FILE: wrappers.dfy ===
/** Failure-compatible wrappers used across the model: `Option` stands for a
    nullable smart pointer or an optional command-line argument, `Result` for
    an operation that either yields a value or throws. */
module Wrappers {

  datatype Option<+T> = None | Some(value: T)

  datatype Result<+R, +E> = Success(value: R) | Failure(error: E)
}
